=== FILE: README.md ===
# fish autoloader: a Dafny model

This project models the autoloader of the fish shell, `autoload.cpp`.

The autoloader finds the script that defines a command (a function or its completions) and has it sourced on first use. It looks the command up in three places, in this order:

- a capacity-bounded LRU cache of `autoload_function_t` entries;
- a sorted table of built-in scripts, searched with `std::lower_bound`;
- the directories of a search-path variable, probed with `access_file` for `dir/cmd.fish`.

It also remembers the last search path it saw and drops the whole cache when that path changes. It refuses to load a command that is already being loaded. When an entry that was not loaded leaves the cache, its `node_was_evicted` hook calls `command_removed` (autoload.cpp:176).

The model is functional. Each C++ operation is a Dafny function that returns the new state and everything the operation hands to the outside world:

- the directive it would run (a built-in's source, or `. <path>`);
- the names it would report to `command_removed`, in order;
- the paths it probes.

Files:

- `seqs.dfy` (`Seqs`): option type, distinct sequences, removal of an element.
- `lru_cache.dfy` (`LruCache`): `lru_cache_impl_t`. The circular list around the sentinel "mouth" is a sequence of keys, most recently used first. The node set is a map.
- `file_access.dfy` (`FileAccess`): `access_file` and `file_access_attempt_t`.
- `builtin_scripts.dfy` (`BuiltinScripts`): the `wcscmp` order, `std::lower_bound`, and the exact-match test on the built-in table.
- `autoload.dfy` (`Autoload`): `autoload_t`. This covers the hook, `load`, `can_load`, `unload`, `unload_all` and `locate_file_and_maybe_load_it`, split into its cache, built-in, directory-search, found-file and placeholder stages.
- `autoload_properties.dfy` (`CacheProperties`, `AutoloadProperties`): lemmas that relate several calls.

Where the comments or names in autoload.cpp disagree with what its code does, the model follows the code as written. The member that states each consequence for all inputs is named in brackets:

- `node_was_evicted` reports a command as removed when its entry was **not** loaded (autoload.cpp:176). The comment at autoload.cpp:175 says "if it was loaded". [`Autoload.Notify` with `Autoload.NotifyOne`, `Autoload.EvictAllNotifies`, `Autoload.Unload`]
- The reload test compares modification times for **equality** (autoload.cpp:359). So a loaded file is reloaded when it did not change, and is not reloaded when it changed. [`AutoloadProperties.ReloadOnlyWhenModTimeUnchanged`]
- On a reload of a loaded entry, the code clears `is_placeholder` (autoload.cpp:370), not `is_loaded`. [`Autoload.FoundFile`]
- `add_node_without_eviction` runs the same eviction loop as `add_node` (autoload.cpp:126-128), despite its name. Both insertions behave alike, and a `can_load` can evict. [`LruCache.AddNode`, `AutoloadProperties.CanLoadEvictsWhenFull`]
- A built-in match never sets `reloaded` and never creates a cache entry. So `load` returns 0 for a built-in it has just run, and it runs the built-in again on every call. [`Autoload.Locate`, `AutoloadProperties.BuiltinRunsEveryTime`]
- The staleness interval is the constant 1 second (autoload.cpp:18). The comment at autoload.cpp:399 speaks of five seconds. [`AutoloadProperties.StalenessIsOneSecond`]
- The comment at autoload.cpp:397-401 says a placeholder saves searching the files again. That holds for `can_load` only. A placeholder is never loaded, so every `load` of a missing command probes all directories again. [`AutoloadProperties.MissingCommandIsCachedForCanLoad`, `AutoloadProperties.MissingCommandIsReprobedByLoad`]

## Model

| member | source | states |
|---|---|---|
| LruCache.New | autoload.cpp:40-43 | a new cache is empty, within capacity, and keeps the given capacity |
| LruCache.Unlink | autoload.cpp:47-61 | evicting a resident node splices it out of the recency order at its position, drops exactly that key from the index, decrements the count and hands that one (key, node) pair to the hook |
| LruCache.EvictLast | autoload.cpp:63-66 | evicting the last node drops the least recently used key, keeps the rest in order with their nodes, and reports that key's pair |
| LruCache.EvictDownTo | autoload.cpp:102-104 | the eviction loop keeps the `bound` most recently used keys with their nodes unchanged, and evicts the others from the least recently used end, one pair per evicted key in that order |
| LruCache.EvictedFromTail | autoload.cpp:127-128 | one turn of the eviction loop followed by the rest of the loop evicts the tail of the recency order, last key first |
| LruCache.EvictKey | autoload.cpp:68-80 | removal by key succeeds iff the key is resident; then only that key leaves, the other keys keep their order and the hook sees it once; otherwise nothing changes |
| LruCache.EvictAll | autoload.cpp:151-155 | emptying the cache leaves no keys and no nodes, and evicts every resident key, least recently used first |
| LruCache.Promote | autoload.cpp:82-95 | promotion moves the key to the front and keeps all other keys in their relative order, with the index and the count unchanged |
| LruCache.GetNode | autoload.cpp:134-149 | a hit returns the key's node and makes the key most recently used without changing any node; a miss returns nothing and changes nothing |
| LruCache.AddNodeWithoutEviction | autoload.cpp:110-132 | inserting a duplicate key fails and changes nothing; a new key is linked in front, the cache is cut back to capacity, and the least recently used keys beyond it are evicted in order |
| LruCache.AddNode | autoload.cpp:97-108 | `add_node` behaves exactly like `add_node_without_eviction`: its second eviction loop finds nothing to evict |
| LruCache.Rewrite | autoload.cpp:388-391 | writing through a node pointer changes only that key's node, and only if the key is resident; the recency order is untouched |
| FileAccess.AccessFile | autoload.cpp:20-38 | a path is accessible iff it can be stat'ed and access is granted; the modification time is kept whenever stat succeeded; the error is that of the first failing call; the check time is the clock after the calls, and the record is never stale |
| BuiltinScripts.PrecedesIrreflexive | autoload.cpp:257-260 | no name precedes itself in `wcscmp` order |
| BuiltinScripts.PrecedesTransitive | autoload.cpp:257-260 | the `wcscmp` order is transitive |
| BuiltinScripts.PrecedesTotal | autoload.cpp:257-260 | of two different names, one precedes the other in `wcscmp` order |
| BuiltinScripts.LowerBound | autoload.cpp:329 | on a sorted table, the lower bound splits it into the names that precede the key and the names that do not |
| BuiltinScripts.LowerBoundMisses | autoload.cpp:330-334 | when the lower bound does not hold the key, no entry of the sorted table has that name |
| BuiltinScripts.FindBuiltin | autoload.cpp:323-335 | the built-in lookup finds a script iff one has exactly the command's name, and returns the first such position |
| Autoload.NewLoader | autoload.cpp:159-165 | a new autoloader keeps the given table (sorted) and capacity, and starts with an empty path, an empty cache and nothing loading |
| Autoload.Notify | autoload.cpp:171-179 | the hook reports, among the evicted entries, exactly the names whose entry was not loaded, one report per eviction at most |
| Autoload.NotifyOne | autoload.cpp:176-177 | a single eviction is reported iff its entry was not loaded |
| Autoload.NotifyAppend | autoload.cpp:171-179 | the reports for consecutive evictions are the reports for each, in eviction order, so each unloaded eviction is reported exactly once |
| Autoload.UnloadedLruFirst | autoload.cpp:151-155 | the unloaded keys of a cache, least recently used first, contain each unloaded key and nothing else, without duplicates when the keys are distinct |
| Autoload.NotifyEvictionOrder | autoload.cpp:151-155 | the hook's reports for evictions of the whole recency order from its least recently used end are the unloaded keys, least recently used first |
| Autoload.ScanFrom | autoload.cpp:344-395 | the directory loop probes the candidate paths `dir/cmd.fish` in directory order and stops at the first accessible one; it reports that position and its probe, or that no path from the start position on is accessible, having probed them all |
| Autoload.InsertEntry | autoload.cpp:377-385 | a new entry for a missing command is linked in front with its final contents, and other entries are unchanged; the names reported removed are exactly the full cache's least recently used entry if it was unloaded, or, with capacity 0, the new entry itself, which is evicted at once |
| Autoload.InsertionEvicts | autoload.cpp:110-132 | inserting a new node into a valid cache evicts exactly the least recently used old node when the cache was full and nothing otherwise, and the evicted node is gone afterwards; with capacity 0 it evicts the new node itself and leaves the cache as it was |
| Autoload.InsertionNotifies | autoload.cpp:176-177 | the reports for an insertion's evictions are the full cache's least recently used entry if it was unloaded, or, with capacity 0, the new entry if it is unloaded |
| Autoload.FoundFile | autoload.cpp:350-393 | when a file is found, the command is (re)loaded iff loading is requested and the entry is missing, unloaded or has an equal modification time; the directive is `. path` exactly then; the probe always replaces the access record; an existing entry is promoted with the other keys in their order, and a reload of a loaded entry reports it removed and clears its placeholder flag; a new entry is linked in front and reports exactly what its insertion evicts |
| Autoload.Placeholder | autoload.cpp:402-417 | when nothing was found, a missing command gets a new placeholder entry checked now, linked in front, and reports exactly what its insertion evicts; an existing entry is promoted with the other keys in their order, only its check time is set to now, and nothing is reported |
| Autoload.SearchHit | autoload.cpp:350-393 | when candidate `k` is the first accessible one, the outcome is the found file's: probes up to `k`, the reload rule, the entry with that probe; a cached command is only promoted, a new one linked in front, and the reports are exact |
| Autoload.SearchDirs | autoload.cpp:341-436 | when a directory holds the first accessible candidate, the probes stop there, the result and directive follow the reload rule, and the entry carries that probe, its loaded flag and its placeholder flag as the reload rule sets them; when none does, every candidate is probed, the answer is false, nothing runs and the entry is stamped with the current time; either way a cached command is only promoted and a new one is linked in front, so no other entry moves or leaves except the least recently used one a full cache evicts; a cached command is reported removed iff a file is run for it while it was loaded, and a new entry reports exactly what its insertion evicts |
| Autoload.Locate | autoload.cpp:279-437 | a usable cached entry answers with its accessible flag and no probe, and the lookup only promotes it; otherwise a built-in of that name answers without probing or caching, the cache changes only by that promotion (not at all on a miss), and the first table entry of that name runs iff loading; otherwise the directories are searched in the promoted cache |
| Autoload.Load | autoload.cpp:186-243 | an empty path is a no-op with code 0; the cache keeps its capacity; a changed path is stored and empties the cache, reporting each unloaded entry once, least recently used first; a command being loaded is refused with code 1, with an empty cache of the same capacity if the path changed; otherwise the command is located for loading while marked as loading, its reports follow those of the path change, and the code is 1 iff it was loaded; the directive runs against the loader as the lookup left it (new path, resulting cache) with the command marked as loading; the loading set is the same afterwards |
| Autoload.EvictAllNotifies | autoload.cpp:210-214 | dropping all entries on a path change leaves an empty cache of the same capacity and reports each entry that was not loaded exactly once, least recently used first |
| Autoload.CanLoad | autoload.cpp:245-255 | an unset or empty variable answers false and changes nothing; otherwise the command is located without loading and without the staleness test: a cached entry of any age answers with its accessible flag, an uncached one is found iff a built-in or some directory provides it, and a missing one is remembered by a placeholder after probing every directory; the path and the loading set are untouched |
| Autoload.Unload | autoload.cpp:181-184 | unloading returns 1 iff the command was cached; then exactly that entry leaves, the other keys keep their order, and it is reported removed iff it was not loaded; otherwise nothing changes; the capacity is kept |
| Autoload.UnloadAll | autoload.cpp:262-265 | unloading everything leaves an empty cache of the same capacity and reports each entry that was not loaded exactly once, least recently used first |
| CacheProperties.GetNodeIdempotent | autoload.cpp:134-149 | looking a key up twice has the same effect as looking it up once |
| CacheProperties.AddWithRoom | autoload.cpp:110-132 | with room to spare, inserting a new key only links it in front and evicts nothing |
| CacheProperties.EvictFront | autoload.cpp:68-80 | evicting the key at the front of a cache that was just extended by it restores the cache and reports that key with its node |
| CacheProperties.EvictUndoesAdd | autoload.cpp:97-108 | with room to spare, `evict_node(key)` right after `add_node` of a new key restores the cache exactly |
| CacheProperties.FullCacheEvictsLeastRecent | autoload.cpp:126-128 | inserting into a full cache evicts exactly its least recently used key and keeps the rest in order behind the new one |
| AutoloadProperties.NeverLoadedEntryIsNotReused | autoload.cpp:303-305 | a cached entry that is not loaded never answers a load: unless a built-in takes over, the directories are searched and at least one is probed |
| AutoloadProperties.StalenessIsOneSecond | autoload.cpp:300 | a reloading call answers from a loaded entry one second after its last check, with its accessible flag, promoting it and probing, running and reporting nothing; two seconds after it, the call searches the directories again |
| AutoloadProperties.ReloadOnlyWhenModTimeUnchanged | autoload.cpp:359-375 | a loaded entry is reloaded iff the found file's modification time equals the recorded one |
| AutoloadProperties.NestedLoadIsRefused | autoload.cpp:217-228 | while a command's directive runs, a nested load of the same command gets code 1, probes and reports nothing and leaves the loader unchanged; afterwards the loading set is as before |
| AutoloadProperties.LoadedCommandIsNotReprobed | autoload.cpp:285-314 | after a load finds and loads a command, a non-reloading load on the same path answers 1 from the cache without probing or running anything |
| AutoloadProperties.MissingCommandIsReprobedByLoad | autoload.cpp:397-417 | a placeholder does not rate-limit `load`: a second load of a missing command probes every directory again |
| AutoloadProperties.MissingCommandIsCachedForCanLoad | autoload.cpp:402-417 | once `can_load` finds a command missing, later `can_load` calls answer false from the placeholder without probing, at any time |
| AutoloadProperties.BuiltinRunsEveryTime | autoload.cpp:323-339 | loading a built-in runs its source, probes nothing, creates no cache entry and returns 0 |
| AutoloadProperties.PathChangeForcesReprobe | autoload.cpp:206-214 | after the search path changes, a load of a non-built-in command probes at least one directory, whatever was cached before |
| AutoloadProperties.CanLoadEvictsWhenFull | autoload.cpp:377-385 | a `can_load` of an uncached, non-built-in command into a full cache reports the least recently used entry iff it was not loaded, whether or not a file is found |
| AutoloadProperties.CanLoadCanEvict | autoload.cpp:377-385 | a `can_load` that inserts without eviction still evicts: with capacity 1, finding "b" evicts the placeholder for "a" and reports it removed |

## Left out

- Locking (`scoped_lock`, the mutex) and the main-thread assertions are not modelled. Each operation is one atomic step.
- The environment (`env_get_string`, `env_vars::get`), `tokenize_variable_array2`, the clock (`time`), and `wstat`/`waccess` are not modelled. They become parameters: the variable's value, its directory list, `now`, and a probe function from path to access record. `FileAccess.AccessFile` models `access_file` on given `stat` and access-mode outcomes.
- The two clock reads of one call (autoload.cpp:300 and 416) are taken as the same instant `now`.
- `escape_string`, `str2wcstring` and `exec_subshell` are not modelled. The model returns a directive naming the file path or the built-in script instead of running a script. Its return value is ignored by the source too.
- The directive runs while the command is in the loading set. The script can re-enter the autoloader. This is modelled only by returning the loader state seen at that moment (`during`), not by the nested calls' own state changes.
- `command_removed` is a call into the owner of the autoloader. The model returns the names it would receive, in order.
- Autoload.NewLoader: the constructor at autoload.cpp:159-165 takes no capacity; the cache size comes from the base class default declared in `autoload.h`. The `capacity` parameter stands for that default.
- `autoload.h` is not part of this model. A new `autoload_function_t` is taken to start not loaded, not a placeholder, with an all-zero access record.
- With capacity 0, `add_node` frees the new node at once and the source then writes through the dangling pointer. The model drops that write.
- `debug` messages and the `CHECK_BLOCK` guard are not modelled.
- The `stale` field of an access record is written but never read. It is carried along unused.
- `std::lower_bound`'s sequence of probes is not reproduced. `BuiltinScripts.LowerBound` is a binary search with the same result on a sorted table.
- Names are sequences of characters. `wcscmp` is compared by code point, and embedded NUL characters are not treated specially.
- The autoloader destructor is not modelled.


=== FILE: autoload.dfy ===
/** The autoloader of autoload.cpp (`autoload_t`): an LRU cache of
    `autoload_function_t` entries plus the search-path bookkeeping, the
    recursion guard and the decision procedure `locate_file_and_maybe_load_it`.

    Everything the source reaches outside itself is a parameter: the current
    time `now`, the value of the search-path variable, the directory list it
    tokenizes to, and `probe`, which stands for `access_file(path, R_OK)`.
    Instead of running a script, an operation returns the directive it would
    hand to the executor, and instead of calling `command_removed`, it returns
    the names it would have passed, in order. */
module Autoload {
  import opened Seqs
  import opened LruCache
  import opened FileAccess
  import opened BuiltinScripts

  /** `kAutoloadStalenessInterval`, in seconds (the comment at autoload.cpp:399
      speaks of five seconds; the constant is 1). */
  const StalenessInterval: int := 1

  /** The candidate file for `cmd` in directory `dir`: `dir/cmd.fish`. */
  function CandidatePath(dir: string, cmd: string): string
  {
    dir + "/" + cmd + ".fish"
  }

  /** The candidate files for `cmd`, one per search directory, in search order. */
  function Candidates(dirs: seq<string>, cmd: string): (r: seq<string>)
    ensures |r| == |dirs|
    ensures forall i :: 0 <= i < |dirs| ==> r[i] == CandidatePath(dirs[i], cmd)
  {
    seq(|dirs|, i requires 0 <= i < |dirs| => CandidatePath(dirs[i], cmd))
  }

  /** `autoload_function_t`: whether the definition was handed to the executor,
      whether the entry records "not found", and the last probe of its file. */
  datatype Entry = Entry(isLoaded: bool, isPlaceholder: bool, access: Attempt)

  /** A freshly constructed entry: not loaded, not a placeholder, zeroed access record. */
  const FreshEntry := Entry(false, false, NoAttempt)

  /** What would be handed to the script executor: a built-in's inline source,
      or `. <escaped path>` for a file. */
  datatype Directive = RunBuiltin(script: Script) | SourceFile(path: string)

  /** `autoload_t`: the last search path seen, the cache, the names being
      loaded right now, and the sorted built-in table. */
  datatype Loader = Loader(path: string, cache: Cache<Entry>, loading: set<string>, builtins: seq<Script>)

  ghost predicate Consistent(l: Loader)
  {
    LruCache.Valid(l.cache) && Sorted(l.builtins)
  }

  /** The constructor: empty path, empty cache, nothing loading. */
  function NewLoader(builtins: seq<Script>, capacity: nat): (l: Loader)
    requires Sorted(builtins)
    ensures Consistent(l) && l.cache.keys == [] && l.loading == {}
    ensures l.builtins == builtins && l.cache.capacity == capacity && l.path == ""
  {
    Loader("", New(capacity), {}, builtins)
  }

  // ---------------------------------------------------------------------------
  // The eviction hook
  // ---------------------------------------------------------------------------

  /** `autoload_t::node_was_evicted` over a run of evictions, one report per
      eviction of an entry that was NOT loaded, in eviction order. The test at
      autoload.cpp:176 fires when the node's loaded flag is clear; the comment at
      autoload.cpp:175 says "if it was loaded". */
  function Notify(ev: seq<(string, Entry)>): (r: seq<string>)
    ensures |r| <= |ev|
    ensures forall k :: k in r <==> exists i :: 0 <= i < |ev| && ev[i].0 == k && !ev[i].1.isLoaded
  {
    if |ev| == 0 then []
    else
      var rest := Notify(ev[1..]);
      assert forall i :: 1 <= i < |ev| ==> ev[i] == ev[1..][i - 1];
      (if !ev[0].1.isLoaded then [ev[0].0] else []) + rest
  }

  /** A single eviction is reported iff its entry was not loaded. */
  lemma NotifyOne(key: string, e: Entry)
    ensures Notify([(key, e)]) == (if e.isLoaded then [] else [key])
  {
  }

  /** Reports of consecutive runs of evictions are concatenated in order. */
  lemma {:induction false} NotifyAppend(a: seq<(string, Entry)>, b: seq<(string, Entry)>)
    ensures Notify(a + b) == Notify(a) + Notify(b)
    decreases |a|
  {
    if |a| == 0 {
      assert a + b == b;
    } else {
      assert (a + b)[1..] == a[1..] + b;
      NotifyAppend(a[1..], b);
    }
  }

  /** The keys of unloaded entries, least recently used first: what emptying a
      cache with recency order `keys` reports, stated without the eviction loop. */
  function UnloadedLruFirst(keys: seq<string>, entries: map<string, Entry>): (r: seq<string>)
    requires forall k :: k in keys ==> k in entries
    ensures forall k :: k in r <==> k in keys && !entries[k].isLoaded
    ensures Distinct(keys) ==> Distinct(r)
    decreases |keys|
  {
    if |keys| == 0 then []
    else
      var last := keys[|keys| - 1];
      var older := keys[..|keys| - 1];
      assert keys == older + [last];
      var rest := UnloadedLruFirst(older, entries);
      DistinctCons(last, rest);
      (if !entries[last].isLoaded then [last] else []) + rest
  }

  /** Notifying the evictions of a whole cache, least recently used first,
      reports each unloaded key once, least recently used first. */
  lemma {:induction false} NotifyEvictionOrder(keys: seq<string>, entries: map<string, Entry>, ev: seq<(string, Entry)>)
    requires forall k :: k in keys ==> k in entries
    requires TailEvicted(keys, entries, 0, ev)
    ensures Notify(ev) == UnloadedLruFirst(keys, entries)
    decreases |keys|
  {
    if |keys| > 0 {
      var n := |keys|;
      var older := keys[..n - 1];
      forall i | 0 <= i < |ev[1..]|
        ensures ev[1..][i] == (older[|older| - 1 - i], entries[older[|older| - 1 - i]])
      {
        assert ev[1..][i] == ev[i + 1];
      }
      NotifyEvictionOrder(older, entries, ev[1..]);
      assert ev[0] == (keys[n - 1], entries[keys[n - 1]]);
    }
  }

  // ---------------------------------------------------------------------------
  // The pieces of locate_file_and_maybe_load_it
  // ---------------------------------------------------------------------------

  /** The cascade at autoload.cpp:296-309 deciding whether a cached entry can
      be used without touching the filesystem. */
  predicate UseCached(func: Option<Entry>, reallyLoad: bool, reload: bool, now: int)
  {
    var allowStale := !reload;
    if func.None? then false
    else if !allowStale && now - func.value.access.lastChecked > StalenessInterval then false
    else if reallyLoad && !func.value.isLoaded then false
    else true
  }

  /** Some built-in script is named exactly `cmd`. */
  ghost predicate IsBuiltin(table: seq<Script>, cmd: string)
  {
    exists i :: 0 <= i < |table| && table[i].name == cmd
  }

  /** The probes made by a directory scan, the index of the directory that
      answered (if any) and its probe result. */
  datatype Scan = Scan(probed: seq<string>, hit: Option<nat>, access: Attempt)

  /** `k` is the first position at or after `from` whose path is accessible. */
  ghost predicate FirstAccessibleFrom(paths: seq<string>, probe: string -> Attempt, from: nat, k: nat)
  {
    && k < |paths|
    && probe(paths[k]).accessible
    && forall j :: from <= j < k ==> !probe(paths[j]).accessible
  }

  /** No path at or after position `from` is accessible. */
  ghost predicate NoneAccessibleFrom(paths: seq<string>, probe: string -> Attempt, from: nat)
  {
    forall j :: from <= j < |paths| ==> !probe(paths[j]).accessible
  }

  /** `k` is the first search directory whose candidate file is accessible. */
  ghost predicate FirstAccessible(dirs: seq<string>, cmd: string, probe: string -> Attempt, k: nat)
  {
    FirstAccessibleFrom(Candidates(dirs, cmd), probe, 0, k)
  }

  /** No search directory holds an accessible candidate file. */
  ghost predicate NoneAccessible(dirs: seq<string>, cmd: string, probe: string -> Attempt)
  {
    NoneAccessibleFrom(Candidates(dirs, cmd), probe, 0)
  }

  /** The directory loop (autoload.cpp:344-395) from position `from` on, over
      the candidate paths `dir/cmd.fish` in directory order: probe them in
      order and stop at the first accessible one. */
  function ScanFrom(paths: seq<string>, probe: string -> Attempt, from: nat): (r: Scan)
    requires from <= |paths|
    ensures r.hit.Some? ==>
              && from <= r.hit.value
              && FirstAccessibleFrom(paths, probe, from, r.hit.value)
              && r.access == probe(paths[r.hit.value])
              && r.probed == paths[from..r.hit.value + 1]
    ensures r.hit.None? ==>
              && NoneAccessibleFrom(paths, probe, from)
              && r.probed == paths[from..]
    decreases |paths| - from
  {
    if from == |paths| then Scan([], None, NoAttempt)
    else
      var access := probe(paths[from]);
      if access.accessible then Scan([paths[from]], Some(from), access)
      else
        var rest := ScanFrom(paths, probe, from + 1);
        Scan([paths[from]] + rest.probed, rest.hit, rest.access)
  }

  /** A cache change and the removal notifications it caused. */
  datatype Installed = Installed(cache: Cache<Entry>, removed: seq<string>)

  /** The names `command_removed` receives when a new entry `initial` for
      `cmd` is linked into `c`: with capacity 0 the new entry itself, at once,
      unless loaded; with a full cache its least recently used entry, unless
      loaded; otherwise nothing. */
  function InsertionReports(c: Cache<Entry>, cmd: string, initial: Entry): seq<string>
    requires LruCache.Valid(c)
  {
    if c.capacity == 0 then (if initial.isLoaded then [] else [cmd])
    else if |c.keys| == c.capacity && !c.entries[c.keys[|c.keys| - 1]].isLoaded then [c.keys[|c.keys| - 1]]
    else []
  }

  /** A new entry for `cmd` with the fields `initial`, inserted with `add_node` (when
      `evict`) or `add_node_without_eviction`, then written through the pointer
      as `final`. With capacity 0 the new node is evicted at once and the source
      writes through a dangling pointer; here the write is simply lost. */
  function InsertEntry(c: Cache<Entry>, cmd: string, initial: Entry, final: Entry, evict: bool): (r: Installed)
    requires LruCache.Valid(c) && cmd !in c.entries
    ensures LruCache.Valid(r.cache) && r.cache.capacity == c.capacity
    ensures forall k :: k in r.cache.entries && k != cmd ==> k in c.entries && r.cache.entries[k] == c.entries[k]
    ensures c.capacity > 0 ==>
              && cmd in r.cache.entries && r.cache.entries[cmd] == final
              && r.cache.keys[0] == cmd
              && r.cache.keys == ([cmd] + c.keys)[..Min(|c.keys| + 1, c.capacity)]
    ensures c.capacity == 0 ==> r.cache == c && r.removed == (if initial.isLoaded then [] else [cmd])
    ensures r.removed == InsertionReports(c, cmd, initial)
  {
    var added := Insert(c, cmd, initial, evict);
    InsertionEvicts(c, cmd, initial, added);
    InsertionNotifies(c, cmd, initial, added.evicted);
    Installed(Rewrite(added.cache, cmd, final), Notify(added.evicted))
  }

  /** The hook's reports for the evictions of an insertion are `InsertionReports`. */
  lemma InsertionNotifies(c: Cache<Entry>, cmd: string, v: Entry, ev: seq<(string, Entry)>)
    requires LruCache.Valid(c)
    requires c.capacity > 0 ==>
               ev == (if |c.keys| == c.capacity then [(c.keys[|c.keys| - 1], c.entries[c.keys[|c.keys| - 1]])] else [])
    requires c.capacity == 0 ==> ev == [(cmd, v)]
    ensures Notify(ev) == InsertionReports(c, cmd, v)
  {
    if c.capacity == 0 {
      NotifyOne(cmd, v);
    } else if |c.keys| == c.capacity {
      NotifyOne(c.keys[|c.keys| - 1], c.entries[c.keys[|c.keys| - 1]]);
    }
  }

  /** What an insertion into a valid cache evicts: with room for the new
      node, only older nodes, which are gone afterwards; without room, the new
      node itself. */
  lemma InsertionEvicts(c: Cache<Entry>, cmd: string, v: Entry, added: Change<Entry>)
    requires LruCache.Valid(c) && cmd !in c.entries
    requires WellFormed(added.cache)
    requires added.cache.keys == ([cmd] + c.keys)[..Min(|c.keys| + 1, c.capacity)]
    requires forall k :: k in added.cache.entries ==> added.cache.entries[k] == c.entries[cmd := v][k]
    requires TailEvicted([cmd] + c.keys, c.entries[cmd := v], Min(|c.keys| + 1, c.capacity), added.evicted)
    requires added.cache.capacity == c.capacity
    ensures c.capacity > 0 ==> cmd in added.cache.entries && added.cache.entries[cmd] == v
    ensures forall k :: k in added.cache.entries && k != cmd ==> k in c.entries && added.cache.entries[k] == c.entries[k]
    ensures c.capacity > 0 ==> forall i :: 0 <= i < |added.evicted| ==>
              added.evicted[i].0 in c.entries && added.evicted[i].1 == c.entries[added.evicted[i].0]
              && added.evicted[i].0 !in added.cache.entries
    ensures c.capacity > 0 ==>
              added.evicted == (if |c.keys| == c.capacity then [(c.keys[|c.keys| - 1], c.entries[c.keys[|c.keys| - 1]])] else [])
    ensures c.capacity == 0 ==> added.cache == c && added.evicted == [(cmd, v)]
  {
    if c.capacity > 0 {
      RoomyInsertion(c, cmd, v, added);
    } else {
      assert c.keys == [] && added.cache.keys == [];
      assert c.entries == map[] && added.cache.entries == map[];
      assert added.evicted[0] == (cmd, c.entries[cmd := v][cmd]);
    }
  }

  /** With room for the new node, at most the least recently used old node is evicted. */
  lemma RoomyInsertion(c: Cache<Entry>, cmd: string, v: Entry, added: Change<Entry>)
    requires LruCache.Valid(c) && cmd !in c.entries && c.capacity > 0
    requires WellFormed(added.cache)
    requires added.cache.keys == ([cmd] + c.keys)[..Min(|c.keys| + 1, c.capacity)]
    requires forall k :: k in added.cache.entries ==> added.cache.entries[k] == c.entries[cmd := v][k]
    requires TailEvicted([cmd] + c.keys, c.entries[cmd := v], Min(|c.keys| + 1, c.capacity), added.evicted)
    ensures cmd in added.cache.entries && added.cache.entries[cmd] == v
    ensures forall k :: k in added.cache.entries && k != cmd ==> k in c.entries && added.cache.entries[k] == c.entries[k]
    ensures forall i :: 0 <= i < |added.evicted| ==>
              added.evicted[i].0 in c.entries && added.evicted[i].1 == c.entries[added.evicted[i].0]
              && added.evicted[i].0 !in added.cache.entries
    ensures added.evicted == (if |c.keys| == c.capacity then [(c.keys[|c.keys| - 1], c.entries[c.keys[|c.keys| - 1]])] else [])
  {
    var s := [cmd] + c.keys;
    var n := |c.keys|;
    assert added.cache.keys == s[..Min(n + 1, c.capacity)];
    assert added.cache.keys[0] == cmd;
    forall k | k in added.cache.entries && k != cmd
      ensures k in c.entries
    {
      assert k in added.cache.keys;
    }
    if |added.evicted| > 0 {
      assert n == c.capacity && |added.evicted| == 1;
      var last := c.keys[n - 1];
      assert s[n] == last;
      assert added.evicted[0] == (last, c.entries[cmd := v][last]);
      assert added.cache.keys == [cmd] + c.keys[..n - 1];
      assert last !in c.keys[..n - 1];
      assert added.evicted == [(last, c.entries[last])];
    }
  }

  /** The recency order `keys` after a search for `cmd` in `c`: a cached `cmd`
      is promoted and nothing else moves; a new `cmd` is linked in front and
      only a full cache's least recently used entry leaves. */
  ghost predicate SearchOrder(c: Cache<Entry>, cmd: string, keys: seq<string>)
    requires WellFormed(c)
  {
    if cmd in c.entries then keys == GetNode(c, cmd).cache.keys
    else c.capacity > 0 ==> keys == ([cmd] + c.keys)[..Min(|c.keys| + 1, c.capacity)]
  }

  /** The outcome of finding an accessible file: the cache, whether the file is
      (re)loaded, the directive to run, and the removal notifications. */
  datatype Found = Found(cache: Cache<Entry>, reloaded: bool, run: Option<Directive>, removed: seq<string>)

  /** A file was found (autoload.cpp:350-393). The reload test compares
      modification times for EQUALITY (autoload.cpp:359), so a loaded entry is
      reloaded when its file did NOT change; a reload of a loaded entry clears
      `is_placeholder`, not `is_loaded` (autoload.cpp:370). A missing entry is
      created, with `add_node` when loading and `add_node_without_eviction`
      otherwise, and the probe result always overwrites the entry's access record. */
  function FoundFile(c: Cache<Entry>, cmd: string, reallyLoad: bool, path: string, access: Attempt): (f: Found)
    requires LruCache.Valid(c)
    ensures LruCache.Valid(f.cache) && f.cache.capacity == c.capacity
    ensures f.reloaded <==>
              reallyLoad && (cmd !in c.entries || c.entries[cmd].access.modTime == access.modTime || !c.entries[cmd].isLoaded)
    ensures f.run == (if f.reloaded then Some(SourceFile(path)) else None)
    ensures forall k :: k in f.cache.entries && k != cmd ==> k in c.entries && f.cache.entries[k] == c.entries[k]
    ensures cmd in c.entries ==>
              var e := c.entries[cmd];
              && f.cache.entries.Keys == c.entries.Keys
              && f.cache.keys[0] == cmd
              && f.cache.keys == GetNode(c, cmd).cache.keys
              && f.cache.entries[cmd] == Entry(e.isLoaded || f.reloaded, e.isPlaceholder && !(f.reloaded && e.isLoaded), access)
              && f.removed == (if f.reloaded && e.isLoaded then [cmd] else [])
    ensures cmd !in c.entries && c.capacity > 0 ==>
              && cmd in f.cache.entries
              && f.cache.entries[cmd] == Entry(f.reloaded, false, access)
              && f.cache.keys[0] == cmd
              && f.cache.keys == ([cmd] + c.keys)[..Min(|c.keys| + 1, c.capacity)]
    ensures cmd !in c.entries ==> f.removed == InsertionReports(c, cmd, FreshEntry)
    ensures SearchOrder(c, cmd, f.cache.keys)
    ensures cmd !in c.entries && c.capacity == 0 ==> f.cache == c
  {
    var look := GetNode(c, cmd);
    var func := look.found;
    var need := reallyLoad && (func.None? || func.value.access.modTime == access.modTime || !func.value.isLoaded);
    var run := if need then Some(SourceFile(path)) else None;
    match func
    case Some(e) =>
      var notifyReload := need && e.isLoaded;
      var e1 := if notifyReload then e.(isPlaceholder := false) else e;
      var e2 := if need then e1.(isLoaded := true) else e1;
      Found(Rewrite(look.cache, cmd, e2.(access := access)), need, run, if notifyReload then [cmd] else [])
    case None =>
      var e2 := if need then FreshEntry.(isLoaded := true) else FreshEntry;
      var ins := InsertEntry(look.cache, cmd, FreshEntry, e2.(access := access), reallyLoad);
      Found(ins.cache, need, run, ins.removed)
  }

  /** Neither a built-in nor a file was found (autoload.cpp:402-417): a missing
      entry becomes a new placeholder; either way only the entry's check time is
      set to `now`, so an existing entry keeps its other fields, including an
      `accessible` flag from an earlier successful probe. */
  function Placeholder(c: Cache<Entry>, cmd: string, reallyLoad: bool, now: int): (p: Installed)
    requires LruCache.Valid(c)
    ensures LruCache.Valid(p.cache) && p.cache.capacity == c.capacity
    ensures forall k :: k in p.cache.entries && k != cmd ==> k in c.entries && p.cache.entries[k] == c.entries[k]
    ensures cmd in c.entries ==>
              var e := c.entries[cmd];
              && p.cache.entries.Keys == c.entries.Keys
              && p.cache.keys[0] == cmd
              && p.cache.keys == GetNode(c, cmd).cache.keys
              && p.cache.entries[cmd] == e.(access := e.access.(lastChecked := now))
              && p.removed == []
    ensures cmd !in c.entries && c.capacity > 0 ==>
              && cmd in p.cache.entries
              && p.cache.entries[cmd] == Entry(false, true, NoAttempt.(lastChecked := now))
              && p.cache.keys[0] == cmd
              && p.cache.keys == ([cmd] + c.keys)[..Min(|c.keys| + 1, c.capacity)]
    ensures cmd !in c.entries ==> p.removed == InsertionReports(c, cmd, FreshEntry)
    ensures SearchOrder(c, cmd, p.cache.keys)
    ensures cmd !in c.entries && c.capacity == 0 ==> p.cache == c
  {
    var look := GetNode(c, cmd);
    match look.found
    case Some(e) =>
      Installed(Rewrite(look.cache, cmd, e.(access := e.access.(lastChecked := now))), [])
    case None =>
      var placeholder := FreshEntry.(isPlaceholder := true);
      InsertEntry(look.cache, cmd, placeholder, placeholder.(access := placeholder.access.(lastChecked := now)), reallyLoad)
  }

  /** Everything `locate_file_and_maybe_load_it` produces. `result` is its
      boolean return value; `probed` lists the paths handed to `access_file`. */
  datatype Outcome = Outcome(cache: Cache<Entry>, result: bool, run: Option<Directive>, removed: seq<string>, probed: seq<string>)

  /** The directory search and what follows it (autoload.cpp:341-417, 432-436),
      reached when neither the cache nor a built-in answered. */
  function SearchDirs(c: Cache<Entry>, cmd: string, reallyLoad: bool,
                      dirs: seq<string>, now: int, probe: string -> Attempt): (o: Outcome)
    requires LruCache.Valid(c)
    ensures LruCache.Valid(o.cache) && o.cache.capacity == c.capacity
    ensures forall k :: k in o.cache.entries && k != cmd ==> k in c.entries && o.cache.entries[k] == c.entries[k]
    ensures forall k: nat :: FirstAccessible(dirs, cmd, probe, k) ==> HitOutcome(c, cmd, reallyLoad, dirs, probe, k, o)
    ensures NoneAccessible(dirs, cmd, probe) ==>
              && o.probed == Candidates(dirs, cmd)
              && !o.result && o.run == None
              && (c.capacity > 0 ==> cmd in o.cache.entries && o.cache.entries[cmd].access.lastChecked == now)
              && (cmd in c.entries ==> o.cache.entries[cmd] == c.entries[cmd].(access := c.entries[cmd].access.(lastChecked := now)))
              && (cmd !in c.entries && c.capacity > 0 ==> o.cache.entries[cmd] == Entry(false, true, NoAttempt.(lastChecked := now)))
    ensures SearchOrder(c, cmd, o.cache.keys)
    // The removal reports: a file run for an entry that was loaded reports it
    // (the reload); a new entry reports what its insertion evicts.
    ensures cmd in c.entries ==> o.removed == (if o.run.Some? && c.entries[cmd].isLoaded then [cmd] else [])
    ensures cmd !in c.entries ==> o.removed == InsertionReports(c, cmd, FreshEntry)
    ensures cmd !in c.entries && c.capacity == 0 ==> o.cache == c
  {
    var scan := ScanFrom(Candidates(dirs, cmd), probe, 0);
    assert Candidates(dirs, cmd)[0..] == Candidates(dirs, cmd);
    match scan.hit
    case Some(k) =>
      ScanHitIsFirst(dirs, cmd, probe, k);
      SearchHit(c, cmd, reallyLoad, dirs, probe, k, scan.access, scan.probed)
    case None =>
      var p := Placeholder(c, cmd, reallyLoad, now);
      NoHitNoFirst(dirs, cmd, probe);
      Outcome(p.cache, false, None, p.removed, scan.probed)
  }

  /** The outcome `o` of a search for `cmd` in `c` whose first accessible
      candidate is the one in directory `k`: the probes stop there; the file is
      (re)loaded iff loading is requested and the entry is missing, unloaded or
      has an equal modification time (autoload.cpp:359); the answer is that
      decision when loading and true otherwise; the file's directive runs iff it
      is (re)loaded; and the entry carries the probe result, is loaded iff it
      was or is now, and stays a placeholder only if it was one and was not
      reloaded while loaded (autoload.cpp:367-371). */
  ghost predicate HitOutcome(c: Cache<Entry>, cmd: string, reallyLoad: bool, dirs: seq<string>,
                             probe: string -> Attempt, k: nat, o: Outcome)
    requires k < |dirs|
  {
    var access := probe(Candidates(dirs, cmd)[k]);
    var reloaded := reallyLoad && (cmd !in c.entries || c.entries[cmd].access.modTime == access.modTime || !c.entries[cmd].isLoaded);
    && o.probed == Candidates(dirs, cmd)[..k + 1]
    && o.result == (if reallyLoad then reloaded else true)
    && o.run == (if reloaded then Some(SourceFile(Candidates(dirs, cmd)[k])) else None)
    && (c.capacity > 0 ==>
          && cmd in o.cache.entries
          && o.cache.entries[cmd].access == access
          && (o.cache.entries[cmd].isLoaded <==> reloaded || (cmd in c.entries && c.entries[cmd].isLoaded))
          && (o.cache.entries[cmd].isPlaceholder <==>
                cmd in c.entries && c.entries[cmd].isPlaceholder && !(reloaded && c.entries[cmd].isLoaded)))
  }

  /** The directory search when candidate `k` is the first accessible one, with
      the probe result `access` of that candidate and the paths `probed` up to
      it: the found file decides the outcome (autoload.cpp:350-393, 432-436). */
  function SearchHit(c: Cache<Entry>, cmd: string, reallyLoad: bool, dirs: seq<string>,
                     probe: string -> Attempt, k: nat, access: Attempt, probed: seq<string>): (o: Outcome)
    requires LruCache.Valid(c) && FirstAccessible(dirs, cmd, probe, k)
    requires access == probe(Candidates(dirs, cmd)[k]) && probed == Candidates(dirs, cmd)[..k + 1]
    ensures LruCache.Valid(o.cache) && o.cache.capacity == c.capacity
    ensures forall key :: key in o.cache.entries && key != cmd ==> key in c.entries && o.cache.entries[key] == c.entries[key]
    ensures HitOutcome(c, cmd, reallyLoad, dirs, probe, k, o)
    ensures SearchOrder(c, cmd, o.cache.keys)
    ensures cmd in c.entries ==> o.removed == (if o.run.Some? && c.entries[cmd].isLoaded then [cmd] else [])
    ensures cmd !in c.entries ==> o.removed == InsertionReports(c, cmd, FreshEntry)
    ensures cmd !in c.entries && c.capacity == 0 ==> o.cache == c
  {
    var f := FoundFile(c, cmd, reallyLoad, Candidates(dirs, cmd)[k], access);
    Outcome(f.cache, if reallyLoad then f.reloaded else true, f.run, f.removed, probed)
  }

  /** `locate_file_and_maybe_load_it(cmd, really_load, reload, dirs)`: the
      cache fast path, then the built-in table, then the directory search. */
  function Locate(c: Cache<Entry>, table: seq<Script>, cmd: string, reallyLoad: bool, reload: bool,
                  dirs: seq<string>, now: int, probe: string -> Attempt): (o: Outcome)
    requires LruCache.Valid(c) && Sorted(table)
    ensures LruCache.Valid(o.cache) && o.cache.capacity == c.capacity
    ensures forall k :: k in o.cache.entries && k != cmd ==> k in c.entries && o.cache.entries[k] == c.entries[k]
    // The cache fast path: a usable entry answers without any probe.
    ensures cmd in c.entries
            && (!reload || now - c.entries[cmd].access.lastChecked <= StalenessInterval)
            && (!reallyLoad || c.entries[cmd].isLoaded) ==>
              && o.result == c.entries[cmd].access.accessible
              && o.probed == [] && o.run == None && o.removed == []
              && o.cache.entries == c.entries && o.cache.keys[0] == cmd
              && o.cache == GetNode(c, cmd).cache
    // Otherwise: a built-in of that name is used without probing or caching.
    ensures !UseCached(if cmd in c.entries then Some(c.entries[cmd]) else None, reallyLoad, reload, now)
            && IsBuiltin(table, cmd) ==>
              && o.probed == [] && o.removed == []
              && o.cache.entries == c.entries
              && o.cache == GetNode(c, cmd).cache
              && (cmd !in c.entries ==> o.cache == c)
              && o.result == !reallyLoad
              && (o.run.Some? <==> reallyLoad)
              && (o.run.Some? ==> o.run.value.RunBuiltin? && o.run.value.script in table && o.run.value.script.name == cmd)
              && (o.run.Some? ==> FindBuiltin(table, cmd).Some? && o.run.value.script == table[FindBuiltin(table, cmd).value])
    // Otherwise: the directories are searched.
    ensures !UseCached(if cmd in c.entries then Some(c.entries[cmd]) else None, reallyLoad, reload, now)
            && !IsBuiltin(table, cmd) ==>
              o == SearchDirs(GetNode(c, cmd).cache, cmd, reallyLoad, dirs, now, probe)
  {
    var look := GetNode(c, cmd);
    if UseCached(look.found, reallyLoad, reload, now) then
      Outcome(look.cache, look.found.value.access.accessible, None, [], [])
    else
      match FindBuiltin(table, cmd)
      case Some(i) =>
        // A built-in never sets `reloaded`, so a load answers false and a probe true.
        Outcome(look.cache, !reallyLoad, if reallyLoad then Some(RunBuiltin(table[i])) else None, [], [])
      case None =>
        SearchDirs(look.cache, cmd, reallyLoad, dirs, now, probe)
  }

  /** When no candidate is accessible there is no first accessible one. */
  lemma NoHitNoFirst(dirs: seq<string>, cmd: string, probe: string -> Attempt)
    requires NoneAccessible(dirs, cmd, probe)
    ensures forall k: nat :: !FirstAccessible(dirs, cmd, probe, k)
  {
  }

  /** There is only one first accessible directory. */
  lemma ScanHitIsFirst(dirs: seq<string>, cmd: string, probe: string -> Attempt, k: nat)
    requires FirstAccessibleFrom(Candidates(dirs, cmd), probe, 0, k)
    ensures forall k': nat :: FirstAccessible(dirs, cmd, probe, k') <==> k' == k
    ensures !NoneAccessible(dirs, cmd, probe)
  {
  }

  // ---------------------------------------------------------------------------
  // The public operations
  // ---------------------------------------------------------------------------

  /** Everything `load` produces: the loader afterwards, the result code, the
      directive handed to the executor, the removal notifications, the probed
      paths, and the loader as the executor sees it while the directive runs. */
  datatype LoadOutcome = LoadOutcome(loader: Loader, code: int, run: Option<Directive>, removed: seq<string>,
                                     probed: seq<string>, during: Loader)

  /** `autoload_t::load(cmd, reload)`, with `pathVar` the value of the search-path
      variable (empty when unset) and `dirs` its tokenization. */
  function Load(l: Loader, pathVar: string, dirs: seq<string>, cmd: string, reload: bool,
                now: int, probe: string -> Attempt): (r: LoadOutcome)
    requires Consistent(l)
    ensures Consistent(r.loader) && r.loader.builtins == l.builtins
    ensures r.loader.cache.capacity == l.cache.capacity
    ensures r.code == 0 || r.code == 1
    ensures r.loader.loading == l.loading
    ensures pathVar == "" ==> r.loader == l && r.code == 0 && r.run == None && r.removed == [] && r.probed == []
    ensures pathVar != "" ==> r.loader.path == pathVar
    // A changed search path drops every cached entry, each through the hook.
    ensures pathVar != "" && pathVar != l.path ==>
              forall k :: k in l.cache.entries && !l.cache.entries[k].isLoaded ==> k in r.removed
    ensures pathVar != "" && pathVar != l.path && cmd in l.loading ==> r.loader.cache == New(l.cache.capacity)
    // Recursion: a command already being loaded is refused with code 1.
    ensures pathVar != "" && cmd in l.loading ==>
              && r.code == 1 && r.run == None && r.probed == [] && (pathVar == l.path ==> r.loader == l)
              && r.removed == (if pathVar != l.path then UnloadedLruFirst(l.cache.keys, l.cache.entries) else [])
    // Otherwise the command is located with really_load set, against an
    // emptied cache if the path changed, while it is marked as loading.
    ensures pathVar != "" && cmd !in l.loading ==>
              var start := if pathVar != l.path then New(l.cache.capacity) else l.cache;
              var o := Locate(start, l.builtins, cmd, true, reload, dirs, now, probe);
              && r.code == (if o.result then 1 else 0)
              && r.run == o.run && r.probed == o.probed && r.loader.cache == o.cache
              && r.removed == (if pathVar != l.path then UnloadedLruFirst(l.cache.keys, l.cache.entries) else []) + o.removed
              && r.during.loading == l.loading + {cmd}
    // The directive runs against the loader as the lookup left it, with the
    // new path and with the command marked as loading.
    ensures pathVar != "" && cmd !in l.loading ==> r.during == r.loader.(loading := l.loading + {cmd})
    ensures pathVar != "" && cmd in l.loading ==> r.during == r.loader
  {
    if pathVar == "" then LoadOutcome(l, 0, None, [], [], l)
    else
      var invalidated := if pathVar != l.path then EvictAll(l.cache) else Step(l.cache, []);
      var hookEvents := Notify(invalidated.evicted);
      var l1 := l.(path := pathVar, cache := invalidated.cache);
      EvictAllNotifies(l.cache);
      if cmd in l1.loading then LoadOutcome(l1, 1, None, hookEvents, [], l1)
      else
        assert (l.loading + {cmd}) - {cmd} == l.loading;
        var l2 := l1.(loading := l1.loading + {cmd});
        var o := Locate(l2.cache, l2.builtins, cmd, true, reload, dirs, now, probe);
        var l3 := l2.(cache := o.cache);
        var l4 := l3.(loading := l3.loading - {cmd});
        LoadOutcome(l4, if o.result then 1 else 0, o.run, hookEvents + o.removed, o.probed, l3)
  }

  /** Emptying the cache reports each unloaded entry exactly once, least
      recently used first. */
  lemma EvictAllNotifies(c: Cache<Entry>)
    requires WellFormed(c)
    ensures EvictAll(c).cache == New(c.capacity)
    ensures Notify(EvictAll(c).evicted) == UnloadedLruFirst(c.keys, c.entries)
    ensures forall k :: k in Notify(EvictAll(c).evicted) <==> k in c.entries && !c.entries[k].isLoaded
    ensures Distinct(Notify(EvictAll(c).evicted))
  {
    NotifyEvictionOrder(c.keys, c.entries, EvictAll(c).evicted);
  }

  /** Everything `can_load` produces: the loader afterwards (only its cache can
      change), the answer, the removal notifications and the probed paths. */
  datatype Probe = Probe(loader: Loader, result: bool, removed: seq<string>, probed: seq<string>)

  /** `autoload_t::can_load(cmd, vars)`, with `pathVar` the variable's value in
      the caller's snapshot and `dirs` its tokenization. It neither compares nor
      stores the path, never runs a script, and a cached entry of any age answers it. */
  function CanLoad(l: Loader, pathVar: Option<string>, dirs: seq<string>, cmd: string,
                   now: int, probe: string -> Attempt): (r: Probe)
    requires Consistent(l)
    ensures Consistent(r.loader)
    ensures r.loader.path == l.path && r.loader.loading == l.loading && r.loader.builtins == l.builtins
    ensures pathVar.None? || pathVar == Some("") ==> r == Probe(l, false, [], [])
    ensures pathVar.Some? && pathVar != Some("") && cmd in l.cache.entries ==>
              r.result == l.cache.entries[cmd].access.accessible && r.probed == [] && r.removed == []
    ensures pathVar.Some? && pathVar != Some("") && cmd !in l.cache.entries ==>
              (r.result <==> IsBuiltin(l.builtins, cmd) || !NoneAccessible(dirs, cmd, probe))
    // The lookup runs without loading and without the staleness test.
    ensures pathVar.Some? && pathVar != Some("") ==>
              var o := Locate(l.cache, l.builtins, cmd, false, false, dirs, now, probe);
              r.loader.cache == o.cache && r.result == o.result && r.removed == o.removed && r.probed == o.probed
    // A missing command is remembered by a placeholder, checked now.
    ensures pathVar.Some? && pathVar != Some("") && cmd !in l.cache.entries && l.cache.capacity > 0
            && !IsBuiltin(l.builtins, cmd) && NoneAccessible(dirs, cmd, probe) ==>
              && cmd in r.loader.cache.entries
              && r.loader.cache.entries[cmd] == Entry(false, true, NoAttempt.(lastChecked := now))
              && r.probed == Candidates(dirs, cmd)
  {
    if pathVar.None? || pathVar.value == "" then Probe(l, false, [], [])
    else
      var o := Locate(l.cache, l.builtins, cmd, false, false, dirs, now, probe);
      FirstHitExists(dirs, cmd, probe);
      Probe(l.(cache := o.cache), o.result, o.removed, o.probed)
  }

  /** If some candidate is accessible, a first one is. */
  lemma FirstHitExists(dirs: seq<string>, cmd: string, probe: string -> Attempt)
    ensures !NoneAccessible(dirs, cmd, probe) ==> exists k: nat :: FirstAccessible(dirs, cmd, probe, k)
  {
    var s := ScanFrom(Candidates(dirs, cmd), probe, 0);
    if s.hit.Some? {
      assert FirstAccessible(dirs, cmd, probe, s.hit.value);
    }
  }

  /** Everything `unload` and `unload_all` produce. */
  datatype Unloaded = Unloaded(loader: Loader, code: int, removed: seq<string>)

  /** `autoload_t::unload(cmd)`: evict one entry; 1 if it was cached, else 0. */
  function Unload(l: Loader, cmd: string): (r: Unloaded)
    requires Consistent(l)
    ensures Consistent(r.loader)
    ensures r.loader.path == l.path && r.loader.loading == l.loading && r.loader.builtins == l.builtins
    ensures r.code == (if cmd in l.cache.entries then 1 else 0)
    ensures r.loader.cache.capacity == l.cache.capacity
    ensures cmd !in l.cache.entries ==> r.loader == l && r.removed == []
    ensures cmd in l.cache.entries ==>
              && r.loader.cache.entries == l.cache.entries - {cmd}
              && r.loader.cache.count == l.cache.count - 1
              && (forall i :: 0 <= i < |l.cache.keys| && l.cache.keys[i] == cmd ==>
                    r.loader.cache.keys == l.cache.keys[..i] + l.cache.keys[i + 1..])
              && r.removed == (if l.cache.entries[cmd].isLoaded then [] else [cmd])
  {
    var e := EvictKey(l.cache, cmd);
    Unloaded(l.(cache := e.cache), if e.ok then 1 else 0, Notify(e.evicted))
  }

  /** `autoload_t::unload_all()`: empty the cache; every entry that was not
      loaded is reported as removed, once, least recently used first. */
  function UnloadAll(l: Loader): (r: Unloaded)
    requires Consistent(l)
    ensures Consistent(r.loader)
    ensures r.loader.path == l.path && r.loader.loading == l.loading && r.loader.builtins == l.builtins
    ensures r.loader.cache == New(l.cache.capacity)
    ensures forall k :: k in r.removed <==> k in l.cache.entries && !l.cache.entries[k].isLoaded
    ensures r.removed == UnloadedLruFirst(l.cache.keys, l.cache.entries) && Distinct(r.removed)
  {
    var e := EvictAll(l.cache);
    EvictAllNotifies(l.cache);
    Unloaded(l.(cache := e.cache), 0, Notify(e.evicted))
  }
}

=== FILE: autoload_properties.dfy ===
/** Properties that relate several calls of the cache and the loader. */
module CacheProperties {
  import opened Seqs
  import opened LruCache

  /** Looking the same key up twice leaves the cache as looking it up once. */
  lemma {:induction false} GetNodeIdempotent<V>(c: Cache<V>, key: string)
    requires WellFormed(c)
    ensures GetNode(GetNode(c, key).cache, key) == GetNode(c, key)
  {
    if key in c.entries {
      var once := GetNode(c, key).cache;
      assert once.keys[0] == key;
      assert once.keys == [key] + once.keys[..0] + once.keys[1..];
    }
  }

  /** With room to spare, inserting a new key just links it in front. */
  lemma AddWithRoom<V>(c: Cache<V>, key: string, v: V)
    requires LruCache.Valid(c) && key !in c.entries && c.count < c.capacity
    ensures AddNode(c, key, v) == Change(Cache([key] + c.keys, c.entries[key := v], c.count + 1, c.capacity), true, [])
  {
  }

  /** Evicting the most recently used key of a cache undoes linking it in front. */
  lemma EvictFront<V>(c: Cache<V>, key: string, v: V)
    requires WellFormed(c) && key !in c.entries
    ensures WellFormed(Cache([key] + c.keys, c.entries[key := v], c.count + 1, c.capacity))
    ensures EvictKey(Cache([key] + c.keys, c.entries[key := v], c.count + 1, c.capacity), key) == Change(c, true, [(key, v)])
  {
    var a := Cache([key] + c.keys, c.entries[key := v], c.count + 1, c.capacity);
    DistinctCons(key, c.keys);
    UpdateThenRemove(c.entries, key, v);
    FrontSplice(key, c.keys);
    var e := EvictKey(a, key);
    assert a.keys[0] == key;
    assert e.cache.keys == c.keys;
  }

  /** Adding a key that was absent and removing it again gives back the map. */
  lemma UpdateThenRemove<V>(m: map<string, V>, key: string, v: V)
    requires key !in m
    ensures m[key := v] - {key} == m
  {
  }

  /** Splicing out the front of `[key] + s` gives back `s`. */
  lemma FrontSplice(key: string, s: seq<string>)
    ensures ([key] + s)[..0] + ([key] + s)[0 + 1..] == s
  {
  }

  /** With room to spare, evicting a key just inserted restores the cache. */
  lemma EvictUndoesAdd<V>(c: Cache<V>, key: string, v: V)
    requires LruCache.Valid(c) && key !in c.entries && c.count < c.capacity
    ensures AddNode(c, key, v).ok
    ensures EvictKey(AddNode(c, key, v).cache, key) == Change(c, true, [(key, v)])
  {
    AddWithRoom(c, key, v);
    EvictFront(c, key, v);
  }

  /** Inserting into a full cache evicts exactly its least recently used key. */
  lemma FullCacheEvictsLeastRecent<V>(c: Cache<V>, key: string, v: V)
    requires LruCache.Valid(c) && key !in c.entries && c.count == c.capacity > 0
    ensures AddNode(c, key, v).evicted == [(c.keys[|c.keys| - 1], c.entries[c.keys[|c.keys| - 1]])]
    ensures AddNode(c, key, v).cache.keys == [key] + c.keys[..|c.keys| - 1]
  {
  }
}

module AutoloadProperties {
  import opened Seqs
  import opened LruCache
  import opened FileAccess
  import opened BuiltinScripts
  import opened Autoload

  /** An entry that was never loaded never answers a real load from the cache:
      unless a built-in takes over, the directories are searched again. */
  lemma NeverLoadedEntryIsNotReused(c: Cache<Entry>, table: seq<Script>, cmd: string, reload: bool,
                                    dirs: seq<string>, now: int, probe: string -> Attempt)
    requires LruCache.Valid(c) && Sorted(table)
    requires cmd in c.entries && !c.entries[cmd].isLoaded && !IsBuiltin(table, cmd)
    ensures Locate(c, table, cmd, true, reload, dirs, now, probe) == SearchDirs(GetNode(c, cmd).cache, cmd, true, dirs, now, probe)
    ensures |dirs| > 0 ==> Locate(c, table, cmd, true, reload, dirs, now, probe).probed != []
  {
  }

  /** The staleness interval is one second: a loaded entry last checked at `t`
      answers a reloading call at `t + 1` from the cache, but not at `t + 2`. */
  lemma StalenessIsOneSecond(c: Cache<Entry>, table: seq<Script>, cmd: string,
                             dirs: seq<string>, probe: string -> Attempt)
    requires LruCache.Valid(c) && Sorted(table)
    requires cmd in c.entries && c.entries[cmd].isLoaded
    ensures var t := c.entries[cmd].access.lastChecked;
            Locate(c, table, cmd, true, true, dirs, t + 1, probe)
              == Outcome(GetNode(c, cmd).cache, c.entries[cmd].access.accessible, None, [], [])
    ensures var t := c.entries[cmd].access.lastChecked;
            !IsBuiltin(table, cmd) ==>
              Locate(c, table, cmd, true, true, dirs, t + 2, probe) == SearchDirs(GetNode(c, cmd).cache, cmd, true, dirs, t + 2, probe)
  {
  }

  /** The reload test as written: a loaded entry whose file kept its
      modification time is reloaded (and reported removed first), while one
      whose file changed is not. */
  lemma ReloadOnlyWhenModTimeUnchanged(c: Cache<Entry>, cmd: string, dirs: seq<string>, now: int,
                                       probe: string -> Attempt, k: nat)
    requires LruCache.Valid(c) && cmd in c.entries && c.entries[cmd].isLoaded
    requires FirstAccessible(dirs, cmd, probe, k)
    ensures var o := SearchDirs(c, cmd, true, dirs, now, probe);
            var probed := probe(Candidates(dirs, cmd)[k]).modTime;
            && (probed == c.entries[cmd].access.modTime ==> o.result && o.run.Some?)
            && (probed != c.entries[cmd].access.modTime ==> !o.result && o.run.None?)
  {
  }

  /** While the directive of a load runs, the command is marked as loading, so
      a nested load of the same command is refused with code 1 and probes nothing. */
  lemma NestedLoadIsRefused(l: Loader, pathVar: string, dirs: seq<string>, cmd: string, reload: bool,
                            now: int, probe: string -> Attempt,
                            dirs': seq<string>, reload': bool, now': int, probe': string -> Attempt)
    requires Consistent(l) && pathVar != "" && cmd !in l.loading
    ensures var r := Load(l, pathVar, dirs, cmd, reload, now, probe);
            && Consistent(r.during)
            && Load(r.during, pathVar, dirs', cmd, reload', now', probe').code == 1
            && Load(r.during, pathVar, dirs', cmd, reload', now', probe').probed == []
            && Load(r.during, pathVar, dirs', cmd, reload', now', probe').removed == []
            && Load(r.during, pathVar, dirs', cmd, reload', now', probe').loader == r.during
            && r.loader.loading == l.loading
  {
  }

  /** A loaded command found in a search directory is not probed again by a
      later non-reloading load on the same path. */
  lemma LoadedCommandIsNotReprobed(l: Loader, pathVar: string, dirs: seq<string>, cmd: string, reload: bool,
                                   now: int, probe: string -> Attempt, k: nat,
                                   dirs': seq<string>, now': int, probe': string -> Attempt)
    requires Consistent(l) && l.cache.capacity > 0
    requires pathVar != "" && cmd !in l.loading && cmd !in l.cache.entries && !IsBuiltin(l.builtins, cmd)
    requires FirstAccessible(dirs, cmd, probe, k)
    ensures var r := Load(l, pathVar, dirs, cmd, reload, now, probe);
            && r.code == 1
            && r.run == Some(SourceFile(Candidates(dirs, cmd)[k]))
            && Load(r.loader, pathVar, dirs', cmd, false, now', probe').code == 1
            && Load(r.loader, pathVar, dirs', cmd, false, now', probe').probed == []
            && Load(r.loader, pathVar, dirs', cmd, false, now', probe').run == None
  {
  }

  /** Recording "not found" does not rate-limit `load`: the placeholder is
      never loaded, so a second load of a missing command probes every
      directory again, however soon it follows the first. */
  lemma MissingCommandIsReprobedByLoad(l: Loader, pathVar: string, dirs: seq<string>, cmd: string,
                                       now: int, probe: string -> Attempt)
    requires Consistent(l) && pathVar != "" && cmd !in l.loading && !IsBuiltin(l.builtins, cmd)
    requires NoneAccessible(dirs, cmd, probe) && cmd !in l.cache.entries
    ensures var r := Load(l, pathVar, dirs, cmd, false, now, probe);
            && r.code == 0 && r.probed == Candidates(dirs, cmd)
            && Load(r.loader, pathVar, dirs, cmd, false, now, probe).probed == Candidates(dirs, cmd)
  {
  }

  /** `can_load` is rate-limited by the placeholder: once a command was found
      missing, later probes answer false from the cache, at any time. */
  lemma MissingCommandIsCachedForCanLoad(l: Loader, pathVar: string, dirs: seq<string>, cmd: string,
                                         now: int, probe: string -> Attempt,
                                         dirs': seq<string>, now': int, probe': string -> Attempt)
    requires Consistent(l) && l.cache.capacity > 0 && pathVar != ""
    requires !IsBuiltin(l.builtins, cmd) && NoneAccessible(dirs, cmd, probe) && cmd !in l.cache.entries
    ensures var r := CanLoad(l, Some(pathVar), dirs, cmd, now, probe);
            && !r.result && r.probed == Candidates(dirs, cmd)
            && !CanLoad(r.loader, Some(pathVar), dirs', cmd, now', probe').result
            && CanLoad(r.loader, Some(pathVar), dirs', cmd, now', probe').probed == []
  {
  }

  /** A built-in is handed to the executor on every load and never cached, and
      `load` reports 0 for it even though its source runs. */
  lemma BuiltinRunsEveryTime(l: Loader, pathVar: string, dirs: seq<string>, cmd: string, reload: bool,
                             now: int, probe: string -> Attempt)
    requires Consistent(l) && pathVar == l.path && pathVar != "" && cmd !in l.loading
    requires IsBuiltin(l.builtins, cmd) && cmd !in l.cache.entries
    ensures var r := Load(l, pathVar, dirs, cmd, reload, now, probe);
            && r.code == 0 && r.probed == [] && r.run.Some? && r.run.value.RunBuiltin?
            && r.loader.cache == l.cache
  {
  }

  /** Changing the search path forgets a loaded command: the next load of it
      searches the directories again. */
  lemma PathChangeForcesReprobe(l: Loader, pathVar: string, dirs: seq<string>, cmd: string, reload: bool,
                                now: int, probe: string -> Attempt)
    requires Consistent(l) && pathVar != "" && pathVar != l.path && cmd !in l.loading
    requires !IsBuiltin(l.builtins, cmd) && |dirs| > 0
    ensures Load(l, pathVar, dirs, cmd, reload, now, probe).probed != []
  {
  }

  /** `can_load` of an uncached command into a full cache evicts its least
      recently used entry and reports it if it was not loaded, whether or not
      a file is found. */
  lemma CanLoadEvictsWhenFull(l: Loader, pathVar: string, dirs: seq<string>, cmd: string,
                              now: int, probe: string -> Attempt)
    requires Consistent(l) && pathVar != "" && cmd !in l.cache.entries && !IsBuiltin(l.builtins, cmd)
    requires 0 < l.cache.count == l.cache.capacity
    ensures var lru := l.cache.keys[|l.cache.keys| - 1];
            && lru in l.cache.entries
            && CanLoad(l, Some(pathVar), dirs, cmd, now, probe).removed == (if l.cache.entries[lru].isLoaded then [] else [lru])
  {
  }

  /** `add_node_without_eviction` does evict: with room for one entry holding a
      placeholder for "a", a `can_load` that finds "b" evicts "a", and the hook
      reports "a" as removed. */
  lemma CanLoadCanEvict(placeholderA: Entry)
    requires !placeholderA.isLoaded
    ensures var c := Cache(["a"], map["a" := placeholderA], 1, 1);
            var l := Loader("/fns", c, {}, []);
            var found := (p: string) => Attempt(true, 0, 7, 9, false);
            CanLoad(l, Some("/fns"), ["/fns"], "b", 9, found).removed == ["a"]
  {
  }
}

=== FILE: builtin_scripts.dfy ===
/** The table of built-in scripts and its exact-match binary search
    (`std::lower_bound` with `script_name_precedes_script_name`, autoload.cpp:257-260, 323-335). */
module BuiltinScripts {
  import opened Seqs

  /** A built-in script: its command name and its inline source. */
  datatype Script = Script(name: string, source: string)

  /** `wcscmp(a, b) < 0`: `a` comes strictly before `b` in code-point
      lexicographic order, a proper prefix coming first. */
  predicate Precedes(a: string, b: string)
    decreases |a|
  {
    |b| > 0 && (|a| == 0 || a[0] < b[0] || (a[0] == b[0] && Precedes(a[1..], b[1..])))
  }

  lemma {:induction false} PrecedesIrreflexive(a: string)
    ensures !Precedes(a, a)
    decreases |a|
  {
    if |a| > 0 {
      PrecedesIrreflexive(a[1..]);
    }
  }

  lemma {:induction false} PrecedesTransitive(a: string, b: string, c: string)
    requires Precedes(a, b) && Precedes(b, c)
    ensures Precedes(a, c)
    decreases |a|
  {
    if |a| > 0 && a[0] == b[0] && b[0] == c[0] {
      PrecedesTransitive(a[1..], b[1..], c[1..]);
    }
  }

  lemma {:induction false} PrecedesTotal(a: string, b: string)
    requires a != b
    ensures Precedes(a, b) || Precedes(b, a)
    decreases |a|
  {
    if |a| > 0 && |b| > 0 && a[0] == b[0] {
      assert a == [a[0]] + a[1..] && b == [b[0]] + b[1..];
      PrecedesTotal(a[1..], b[1..]);
    }
  }

  /** `a` does not come after `b`. */
  lemma NotAfter(a: string, b: string, c: string)
    requires !Precedes(b, a) && Precedes(b, c)
    ensures a == b || Precedes(a, c)
  {
  }

  /** The table is sorted by name in `wcscmp` order, as `std::lower_bound` needs. */
  ghost predicate Sorted(t: seq<Script>)
  {
    forall i, j :: 0 <= i < j < |t| ==> !Precedes(t[j].name, t[i].name)
  }

  /** If the name at `mid` precedes `key`, so does every name up to `mid`. */
  lemma PrecedingPrefix(t: seq<Script>, key: string, mid: nat)
    requires Sorted(t) && mid < |t| && Precedes(t[mid].name, key)
    ensures forall i :: 0 <= i <= mid ==> Precedes(t[i].name, key)
  {
    forall i | 0 <= i <= mid
      ensures Precedes(t[i].name, key)
    {
      if i < mid {
        NotAfter(t[i].name, t[mid].name, key);
      }
    }
  }

  /** If the name at `mid` does not precede `key`, no later name does. */
  lemma NonPrecedingSuffix(t: seq<Script>, key: string, mid: nat)
    requires Sorted(t) && mid < |t| && !Precedes(t[mid].name, key)
    ensures forall i :: mid <= i < |t| ==> !Precedes(t[i].name, key)
  {
    forall i | mid <= i < |t|
      ensures !Precedes(t[i].name, key)
    {
      if mid < i && Precedes(t[i].name, key) {
        NotAfter(t[mid].name, t[i].name, key);
      }
    }
  }

  /** `std::lower_bound` on `[lo, hi)`: the first position whose name does not
      precede `key`. The search keeps everything left of `lo` preceding `key`
      and nothing from `hi` on preceding it. */
  function LowerBound(t: seq<Script>, key: string, lo: nat, hi: nat): (r: nat)
    requires lo <= hi <= |t| && Sorted(t)
    requires forall i :: 0 <= i < lo ==> Precedes(t[i].name, key)
    requires forall i :: hi <= i < |t| ==> !Precedes(t[i].name, key)
    ensures lo <= r <= hi
    ensures forall i :: 0 <= i < r ==> Precedes(t[i].name, key)
    ensures forall i :: r <= i < |t| ==> !Precedes(t[i].name, key)
    decreases hi - lo
  {
    if lo == hi then lo
    else
      var mid := lo + (hi - lo) / 2;
      if Precedes(t[mid].name, key) then
        PrecedingPrefix(t, key, mid);
        LowerBound(t, key, mid + 1, hi)
      else
        NonPrecedingSuffix(t, key, mid);
        LowerBound(t, key, lo, mid)
  }

  /** The built-in lookup of `locate_file_and_maybe_load_it`: the position of
      the first script named exactly `key`, or None when no script has that name. */
  function FindBuiltin(t: seq<Script>, key: string): (r: Option<nat>)
    requires Sorted(t)
    ensures r.Some? ==> r.value < |t| && t[r.value].name == key
    ensures r.Some? ==> forall i :: 0 <= i < r.value ==> t[i].name != key
    ensures r.None? <==> forall i :: 0 <= i < |t| ==> t[i].name != key
  {
    if |t| == 0 then None
    else
      var pos := LowerBound(t, key, 0, |t|);
      PrecedesIrreflexive(key);
      if pos < |t| && t[pos].name == key then Some(pos)
      else
        LowerBoundMisses(t, key, pos);
        None
  }

  /** When the lower bound does not hold `key`, nothing does. */
  lemma LowerBoundMisses(t: seq<Script>, key: string, pos: nat)
    requires Sorted(t) && pos <= |t|
    requires forall i :: 0 <= i < pos ==> Precedes(t[i].name, key)
    requires forall i :: pos <= i < |t| ==> !Precedes(t[i].name, key)
    requires pos == |t| || t[pos].name != key
    ensures forall i :: 0 <= i < |t| ==> t[i].name != key
  {
    PrecedesIrreflexive(key);
    forall i | 0 <= i < |t|
      ensures t[i].name != key
    {
      if i > pos && t[i].name == key {
        PrecedesTotal(t[pos].name, key);
      }
    }
  }
}

=== FILE: file_access.dfy ===
/** The file access prober of autoload.cpp (`access_file`, `file_access_attempt_t`).

    The filesystem and the clock are not modelled: the outcome of the `stat`
    call, the outcome of the access-mode check and the clock reading taken
    after both are parameters. */
module FileAccess {

  /** One probe of a path. `error` is meaningful only when the path is not
      accessible, `modTime` only when the `stat` call succeeded; `stale` is
      written but never read by the loader. */
  datatype Attempt = Attempt(accessible: bool, error: int, modTime: int, lastChecked: int, stale: bool)

  /** The all-zero record a new cache entry starts with (`= {0}`). */
  const NoAttempt := Attempt(false, 0, 0, 0, false)

  /** What `stat` reported: an error number, or the file's modification time. */
  datatype StatOutcome = StatFailed(errno: int) | Stated(mtime: int)

  /** What the access-mode check reported: an error number, or permission. */
  datatype ModeOutcome = Denied(errno: int) | Granted

  /** `access_file`: a path is accessible exactly when it can be stat'ed and the
      requested access is granted; the mode check is consulted only after a
      successful `stat`; the modification time is recorded as soon as `stat`
      succeeds, even if access is then denied; the error recorded is that of the
      first failing call; the check time is the clock reading taken after the
      filesystem calls. */
  function AccessFile(stat: StatOutcome, mode: ModeOutcome, clockAfter: int): (r: Attempt)
    ensures r.accessible <==> stat.Stated? && mode.Granted?
    ensures r.lastChecked == clockAfter && !r.stale
    ensures r.modTime == (if stat.Stated? then stat.mtime else 0)
    ensures stat.StatFailed? ==> r.error == stat.errno
    ensures stat.Stated? && mode.Denied? ==> r.error == mode.errno
    ensures r.accessible ==> r.error == 0
  {
    var base := NoAttempt.(stale := false, lastChecked := clockAfter);
    match stat
    case StatFailed(e) => base.(error := e)
    case Stated(t) =>
      match mode
      case Denied(e) => base.(modTime := t, error := e)
      case Granted => base.(modTime := t, accessible := true)
  }
}

=== FILE: lru_cache.dfy ===
/** The capacity-bounded LRU cache of autoload.cpp (`lru_cache_impl_t`).

    The source keeps its nodes on an intrusive circular list around a sentinel
    "mouth" node: the node after the mouth is the most recently used one and the
    node before it the least recently used one. Here that list is the sequence
    `keys`, most recently used first, and the key-indexed node set is the map
    `entries`. Every mutating operation returns, besides the new cache, the
    nodes that left it, in the order the eviction hook saw them; the hook itself
    belongs to whoever owns the cache. */
module LruCache {
  import opened Seqs

  datatype Cache<V> = Cache(keys: seq<string>, entries: map<string, V>, count: nat, capacity: nat)

  /** The list and the index describe the same nodes, once each, and `count` counts them. */
  ghost predicate WellFormed<V>(c: Cache<V>)
  {
    && c.count == |c.keys|
    && Distinct(c.keys)
    && (forall k :: k in c.entries <==> k in c.keys)
  }

  /** What holds between any two public operations: the cache is also within its capacity. */
  ghost predicate Valid<V>(c: Cache<V>)
  {
    WellFormed(c) && c.count <= c.capacity
  }

  /** A cache transition and the (key, node) pairs it evicted, first evicted first. */
  datatype Step<V> = Step(cache: Cache<V>, evicted: seq<(string, V)>)

  /** A transition that also reports success, as `add_node` and `evict_node(key)` do. */
  datatype Change<V> = Change(cache: Cache<V>, ok: bool, evicted: seq<(string, V)>)

  /** The cache after a lookup (which promotes) and the node found, if any. */
  datatype Lookup<V> = Lookup(cache: Cache<V>, found: Option<V>)

  /** The constructor: only the mouth, linked to itself. */
  function New<V>(capacity: nat): (c: Cache<V>)
    ensures Valid(c) && c.keys == [] && c.entries == map[] && c.capacity == capacity
  {
    Cache([], map[], 0, capacity)
  }

  /** `evict_node(node)`: unlink a resident node, drop it from the index,
      decrement the count and hand the node to the hook. */
  function Unlink<V>(c: Cache<V>, key: string): (r: Step<V>)
    requires WellFormed(c) && key in c.entries
    ensures WellFormed(r.cache) && r.cache.capacity == c.capacity
    ensures r.cache.count == c.count - 1
    ensures r.cache.entries == c.entries - {key}
    ensures forall i :: 0 <= i < |c.keys| && c.keys[i] == key ==> r.cache.keys == c.keys[..i] + c.keys[i + 1..]
    ensures r.evicted == [(key, c.entries[key])]
  {
    RemoveResident(c.keys, key);
    Step(Cache(Remove(c.keys, key), c.entries - {key}, c.count - 1, c.capacity), [(key, c.entries[key])])
  }

  /** `evict_last_node`: evict the node just before the mouth. */
  function EvictLast<V>(c: Cache<V>): (r: Step<V>)
    requires WellFormed(c) && c.count > 0
    ensures WellFormed(r.cache) && r.cache.capacity == c.capacity
    ensures r.cache.keys == c.keys[..|c.keys| - 1]
    ensures forall k :: k in r.cache.entries ==> r.cache.entries[k] == c.entries[k]
    ensures r.evicted == [(c.keys[|c.keys| - 1], c.entries[c.keys[|c.keys| - 1]])]
  {
    var last := c.keys[|c.keys| - 1];
    assert c.keys[..|c.keys| - 1] + c.keys[|c.keys|..] == c.keys[..|c.keys| - 1];
    Unlink(c, last)
  }

  /** The pairs of the last `|keys| - kept` keys, least recently used first:
      what the hook sees when the cache is cut down to `kept` nodes. */
  ghost predicate TailEvicted<V>(keys: seq<string>, entries: map<string, V>, kept: nat, evicted: seq<(string, V)>)
    requires kept <= |keys|
    requires forall k :: k in keys ==> k in entries
  {
    && |evicted| == |keys| - kept
    && forall i {:trigger evicted[i]} :: 0 <= i < |evicted| ==>
         evicted[i] == (keys[|keys| - 1 - i], entries[keys[|keys| - 1 - i]])
  }

  /** The eviction loop that drops the least recently used node for as long
      as more than `bound` nodes remain, shared by `add_node`,
      `add_node_without_eviction` (bound = capacity) and `evict_all_nodes`
      (bound = 0). It keeps the `bound` most recently used
      keys and evicts the rest from the least recently used end. */
  function EvictDownTo<V>(c: Cache<V>, bound: nat): (r: Step<V>)
    requires WellFormed(c)
    ensures WellFormed(r.cache) && r.cache.capacity == c.capacity
    ensures r.cache.keys == c.keys[..Min(|c.keys|, bound)]
    ensures forall k :: k in r.cache.entries ==> r.cache.entries[k] == c.entries[k]
    ensures TailEvicted(c.keys, c.entries, Min(|c.keys|, bound), r.evicted)
    decreases c.count
  {
    if c.count > bound then
      var first := EvictLast(c);
      var rest := EvictDownTo(first.cache, bound);
      EvictedFromTail(c, bound, first.cache, rest);
      Step(rest.cache, first.evicted + rest.evicted)
    else
      assert c.keys[..|c.keys|] == c.keys;
      Step(c, [])
  }

  /** One turn of the eviction loop followed by the rest of the loop is the whole loop. */
  lemma EvictedFromTail<V>(c: Cache<V>, bound: nat, shorter: Cache<V>, rest: Step<V>)
    requires WellFormed(c) && c.count > bound && WellFormed(shorter)
    requires shorter.keys == c.keys[..|c.keys| - 1]
    requires forall k :: k in shorter.entries ==> shorter.entries[k] == c.entries[k]
    requires WellFormed(rest.cache)
    requires rest.cache.keys == shorter.keys[..Min(|shorter.keys|, bound)]
    requires forall k :: k in rest.cache.entries ==> rest.cache.entries[k] == shorter.entries[k]
    requires TailEvicted(shorter.keys, shorter.entries, Min(|shorter.keys|, bound), rest.evicted)
    ensures rest.cache.keys == c.keys[..Min(|c.keys|, bound)]
    ensures forall k :: k in rest.cache.entries ==> rest.cache.entries[k] == c.entries[k]
    ensures TailEvicted(c.keys, c.entries, Min(|c.keys|, bound),
                        [(c.keys[|c.keys| - 1], c.entries[c.keys[|c.keys| - 1]])] + rest.evicted)
  {
  }

  /** `evict_node(key)`: false and no change when the key is absent; otherwise
      exactly that key leaves, the others keep their order, and the hook sees it once. */
  function EvictKey<V>(c: Cache<V>, key: string): (r: Change<V>)
    requires WellFormed(c)
    ensures WellFormed(r.cache) && r.cache.capacity == c.capacity
    ensures r.ok <==> key in c.entries
    ensures key !in c.entries ==> r.cache == c && r.evicted == []
    ensures key in c.entries ==>
              && r.cache.count == c.count - 1
              && r.cache.entries == c.entries - {key}
              && r.evicted == [(key, c.entries[key])]
              && (forall i :: 0 <= i < |c.keys| && c.keys[i] == key ==> r.cache.keys == c.keys[..i] + c.keys[i + 1..])
  {
    if key !in c.entries then Change(c, false, [])
    else
      var u := Unlink(c, key);
      Change(u.cache, true, u.evicted)
  }

  /** `evict_all_nodes`: empties the cache, handing every resident node to the
      hook once, least recently used first. */
  function EvictAll<V>(c: Cache<V>): (r: Step<V>)
    requires WellFormed(c)
    ensures Valid(r.cache) && r.cache.capacity == c.capacity
    ensures r.cache.count == 0 && r.cache.keys == [] && r.cache.entries == map[]
    ensures TailEvicted(c.keys, c.entries, 0, r.evicted)
  {
    EvictDownTo(c, 0)
  }

  /** `promote_node`: move a resident key right after the mouth. */
  function Promote<V>(c: Cache<V>, key: string): (r: Cache<V>)
    requires WellFormed(c) && key in c.entries
    ensures WellFormed(r)
    ensures r.entries == c.entries && r.count == c.count && r.capacity == c.capacity
    ensures r.keys[0] == key
    ensures forall i :: 0 <= i < |c.keys| && c.keys[i] == key ==> r.keys == [key] + (c.keys[..i] + c.keys[i + 1..])
  {
    RemoveResident(c.keys, key);
    DistinctCons(key, Remove(c.keys, key));
    c.(keys := [key] + Remove(c.keys, key))
  }

  /** `get_node`: on a hit the key becomes the most recently used and its node is
      returned; on a miss nothing changes. */
  function GetNode<V>(c: Cache<V>, key: string): (r: Lookup<V>)
    requires WellFormed(c)
    ensures WellFormed(r.cache)
    ensures r.cache.entries == c.entries && r.cache.count == c.count && r.cache.capacity == c.capacity
    ensures key !in c.entries ==> r.found == None && r.cache == c
    ensures key in c.entries ==>
              && r.found == Some(c.entries[key])
              && r.cache.keys[0] == key
              && (forall i :: 0 <= i < |c.keys| && c.keys[i] == key ==> r.cache.keys == [key] + (c.keys[..i] + c.keys[i + 1..]))
  {
    if key in c.entries then Lookup(Promote(c, key), Some(c.entries[key]))
    else Lookup(c, None)
  }

  /** `add_node_without_eviction`: refuses a key that is already resident and
      leaves the cache untouched; otherwise links the node after the mouth.
      Despite its name, and the comment at autoload.cpp:377, the source then runs
      the same eviction loop as `add_node` (autoload.cpp:126-128), so afterwards
      the cache holds the `capacity` most recently used keys. */
  function AddNodeWithoutEviction<V>(c: Cache<V>, key: string, v: V): (r: Change<V>)
    requires WellFormed(c)
    ensures WellFormed(r.cache) && r.cache.capacity == c.capacity
    ensures r.ok <==> key !in c.entries
    ensures key in c.entries ==> r.cache == c && r.evicted == []
    ensures key !in c.entries ==>
              var s := [key] + c.keys;
              var m := c.entries[key := v];
              var kept := Min(|s|, c.capacity);
              && r.cache.count <= c.capacity
              && r.cache.keys == s[..kept]
              && (forall k :: k in r.cache.entries ==> r.cache.entries[k] == m[k])
              && TailEvicted(s, m, kept, r.evicted)
  {
    if key in c.entries then Change(c, false, [])
    else
      DistinctCons(key, c.keys);
      var linked := Cache([key] + c.keys, c.entries[key := v], c.count + 1, c.capacity);
      var t := EvictDownTo(linked, c.capacity);
      Change(t.cache, true, t.evicted)
  }

  /** `add_node`: `add_node_without_eviction` followed by the eviction loop,
      which finds nothing left to evict, so both insertions behave alike. */
  function AddNode<V>(c: Cache<V>, key: string, v: V): (r: Change<V>)
    requires WellFormed(c)
    ensures r == AddNodeWithoutEviction(c, key, v)
  {
    var a := AddNodeWithoutEviction(c, key, v);
    if !a.ok then Change(c, false, [])
    else
      var t := EvictDownTo(a.cache, a.cache.capacity);
      assert t.cache == a.cache;
      Change(t.cache, true, a.evicted + t.evicted)
  }

  /** Insertion by `add_node` when `evict` is set and by
      `add_node_without_eviction` otherwise; both behave alike. */
  function Insert<V>(c: Cache<V>, key: string, v: V, evict: bool): (r: Change<V>)
    requires WellFormed(c)
    ensures r == AddNodeWithoutEviction(c, key, v)
  {
    if evict then AddNode(c, key, v) else AddNodeWithoutEviction(c, key, v)
  }

  /** A write through a node pointer the caller still holds: only a node that
      is still resident can be updated. */
  function Rewrite<V>(c: Cache<V>, key: string, v: V): (r: Cache<V>)
    requires WellFormed(c)
    ensures WellFormed(r)
    ensures r.keys == c.keys && r.count == c.count && r.capacity == c.capacity
    ensures r.entries.Keys == c.entries.Keys
    ensures key in c.entries ==> r.entries[key] == v
    ensures forall k :: k in r.entries && k != key ==> r.entries[k] == c.entries[k]
  {
    if key in c.entries then c.(entries := c.entries[key := v]) else c
  }
}

=== FILE: seqs.dfy ===
/** Small sequence vocabulary shared by the cache and the loader. */
module Seqs {

  /** The conventional Some/None datatype, used where the source returns a nullable pointer. */
  datatype Option<+T> = None | Some(value: T)

  function Min(a: int, b: int): int
  {
    if a <= b then a else b
  }

  /** No element occurs twice. */
  ghost predicate Distinct<T>(s: seq<T>)
  {
    forall i, j :: 0 <= i < j < |s| ==> s[i] != s[j]
  }

  /** `s` with every occurrence of `x` deleted; the other elements keep their order. */
  function Remove<T(==,!new)>(s: seq<T>, x: T): (r: seq<T>)
    ensures forall y :: y in r <==> y in s && y != x
    ensures |r| <= |s|
  {
    if |s| == 0 then []
    else if s[0] == x then Remove(s[1..], x)
    else [s[0]] + Remove(s[1..], x)
  }

  lemma {:induction false} DistinctCons<T>(a: T, t: seq<T>)
    ensures Distinct([a] + t) <==> a !in t && Distinct(t)
  {
    var s := [a] + t;
    assert s[1..] == t;
    if a !in t && Distinct(t) {
      forall i, j | 0 <= i < j < |s|
        ensures s[i] != s[j]
      {
        if i == 0 {
          assert s[j] == t[j - 1];
        } else {
          assert s[i] == t[i - 1] && s[j] == t[j - 1];
        }
      }
    }
    if a in t {
      var k :| 0 <= k < |t| && t[k] == a;
      assert s[0] == s[k + 1];
    }
    if Distinct(s) {
      forall i, j | 0 <= i < j < |t|
        ensures t[i] != t[j]
      {
        assert t[i] == s[i + 1] && t[j] == s[j + 1];
      }
    }
  }

  lemma {:induction false} RemoveAbsent<T(!new)>(s: seq<T>, x: T)
    requires x !in s
    ensures Remove(s, x) == s
  {
    if |s| > 0 {
      RemoveAbsent(s[1..], x);
      assert s == [s[0]] + s[1..];
    }
  }

  /** In a sequence without repetitions, removing the element at position `i`
      splices the sequence around that position. */
  lemma {:induction false} RemoveAt<T(!new)>(s: seq<T>, i: nat)
    requires Distinct(s) && i < |s|
    ensures Remove(s, s[i]) == s[..i] + s[i + 1..]
  {
    DistinctCons(s[0], s[1..]);
    assert s == [s[0]] + s[1..];
    if i == 0 {
      RemoveAbsent(s[1..], s[0]);
    } else {
      assert s[1..][i - 1] == s[i];
      assert s[0] != s[i];
      RemoveAt(s[1..], i - 1);
      assert s[1..][..i - 1] == s[1..i];
      assert s[1..][i..] == s[i + 1..];
      assert [s[0]] + s[1..i] == s[..i];
    }
  }

  lemma {:induction false} DistinctRemove<T(!new)>(s: seq<T>, x: T)
    requires Distinct(s)
    ensures Distinct(Remove(s, x))
  {
    if |s| > 0 {
      DistinctCons(s[0], s[1..]);
      assert s == [s[0]] + s[1..];
      DistinctRemove(s[1..], x);
      if s[0] != x {
        DistinctCons(s[0], Remove(s[1..], x));
      }
    }
  }

  /** Everything the cache needs to know about unlinking one resident key. */
  lemma RemoveResident<T(!new)>(s: seq<T>, x: T)
    requires Distinct(s) && x in s
    ensures |Remove(s, x)| == |s| - 1
    ensures Distinct(Remove(s, x))
    ensures forall i :: 0 <= i < |s| && s[i] == x ==> Remove(s, x) == s[..i] + s[i + 1..]
  {
    var k :| 0 <= k < |s| && s[k] == x;
    RemoveAt(s, k);
    DistinctRemove(s, x);
    forall i | 0 <= i < |s| && s[i] == x
      ensures Remove(s, x) == s[..i] + s[i + 1..]
    {
      RemoveAt(s, i);
    }
  }
}
